=== FILE: README.md ===
# happycat, modelled in Dafny

happycat is a browser clicking game. Picture surfaces ("happycats") drift across the window and bounce off its edges. Each click on one is a point: it plays a random meow and nudges the velocity of every surface whose speed is at most 20 on both axes. The player's mood label climbs with the score. From the first point the game timer runs. From the ninth point every click adds one more surface. A player still under the default name "Player" is asked for a name before the timer starts. Only naming the player writes to local storage: it saves the new name with the score 0. Points are never saved, so a reload brings back the name and a score of 0 (`Games.ScorePoint` leaves the store untouched). When local storage throws, the name and score are read from the cookie string instead.

This project models the game state. That covers the `Surface`, `Player`, `Sampler` and `HappycatGame` classes of `src/js/classes.js`, including the cookie reader inside `Player.load`. It also models the label and reaction rules of the page driver `src/js/app.js`. Each mutating method becomes a pure function from the old state to the new one. The DOM is not part of the state.

- `Vectors`, `Wrappers`: points, sizes, and `Option` (JavaScript's `null`).
- `Numbers`: the JavaScript number facts the game depends on.
  - A score is `Int(n)` or `NaN`.
  - `String(n)` and `parseInt(s, 10)` are modelled character by character: leading white space, an optional sign, then the longest run of digits.
  - `Math.ceil` is modelled.
  - A `Math.random()` value is a real in [0, 1).
- `Cookies`: `split(';')`, the leading-space trimming, and `readCookie`.
- `Surfaces`: position, velocity and size, plus the four setters and the bouncing `iterate`.
- `Players`: the name and score, plus `save`, `load` and `wipeSave`. Local storage is a `map<string, string>`.
- `Samplers`: `playRandom`'s choice of sample.
- `Games`: the game itself.
  - The surface list is a sequence, newest first.
  - The timer is a flag.
  - Every random draw is a parameter.
  - Whether the two callbacks (`onPlayerChange`, `introduce`) are installed is recorded in the state. Calling them is returned as an `Effect`, and so is playing a sample.
- `App`: the texts the page shows for a player, and the handlers for a player change, a click, the name dialog, the reset button and the pause button.

Where the source's own comments suggest something its code does not do, the model follows the code:

- A stored score that is not a number loads as `NaN`, not as 0. `parseInt`'s result is used unchecked, so `Players.MalformedScoreLoadsAsNaN` holds. The labels then show "ready to kill." and no further point changes the score.
- Scoring a point is described as speeding the surfaces up. The conditional operator in the nudge expression binds loosest, so each component gets +1 or -1. It gets -1 only when the component is negative and its draw is at least 0.5. A negative component whose draw is below 0.5 therefore slows down (`Games.NudgeSlowsIff`, `Games.ScorePointCanSlowDown`).
- For the same reason, a new surface's velocity components are exactly -1 or +1 (`Games.SpawnComponent`). They are not drawn from a range.
- When `start` meets a default-named player and `introduce` is installed, it changes nothing at all. A timer that is already running stays running.

## Model

| member | source | states |
|---|---|---|
| Surfaces.SetPosition | src/js/classes.js:60-64 | the position becomes the given point; velocity and size are kept |
| Surfaces.Move | src/js/classes.js:72-76 | the position is shifted by the delta; velocity and size are kept |
| Surfaces.SetVelocity | src/js/classes.js:84-87 | the velocity becomes the given vector; position and size are kept |
| Surfaces.Accelerate | src/js/classes.js:95-98 | the velocity is shifted by the delta; position and size are kept |
| Surfaces.MoveTwice | src/js/classes.js:72-76 | two moves equal one move by the sum of the deltas |
| Surfaces.MoveUndo | src/js/classes.js:72-76 | moving by a delta and then by its negation restores the surface |
| Surfaces.MoveIsSetPosition | src/js/classes.js:60-76 | a move is a set-position to the shifted point |
| Surfaces.SetPositionTwice | src/js/classes.js:60-64 | the later set-position wins |
| Surfaces.AccelerateTwice | src/js/classes.js:95-98 | two accelerations equal one by the sum |
| Surfaces.SetVelocityTwice | src/js/classes.js:84-87 | the later set-velocity wins |
| Surfaces.MoveAccelerateCommute | src/js/classes.js:72-98 | moving and accelerating act on different fields and commute |
| Surfaces.Iterate | src/js/classes.js:106-122 | on each axis the velocity flips exactly when the next position would leave the field on that axis; the surface then moves by the new velocity; its size is kept |
| Surfaces.IterateKeepsSpeed | src/js/classes.js:106-122 | a tick never changes the speed on either axis |
| Surfaces.BounceIff | src/js/classes.js:112-118 | the x (y) velocity is negated if and only if the next x (y) position is below 0 or the far edge reaches the field's width (height) |
| Surfaces.AxesIndependent | src/js/classes.js:106-122 | the new x position and x velocity depend only on x data and the field width |
| Surfaces.IterateExamples | test/classes.js:102-144 | the bounce cases of happycat's tests (test/classes.js), plus the game-level move from (1,2) by (5,5) to (6,7) from test/classes.js:376-386 |
| Surfaces.IterateStaysInside | src/js/classes.js:106-122 | a surface inside a field with room for its extent plus twice its speed stays inside after a tick |
| Surfaces.IterateCanLeave | src/js/classes.js:112-120 | without that room, bouncing can carry a surface out of the field (a concrete case) |
| Numbers.Ceil | src/js/classes.js:310-311 | the result is the least integer not below the argument |
| Numbers.NatDigits | src/js/classes.js:170 | the decimal text of a natural number is non-empty, all digits, and has no leading zero |
| Numbers.NatDigitsValue | src/js/classes.js:170 | reading that text's digits back gives the number |
| Numbers.TrimStartSpec | src/js/classes.js:187 | trimming leaves a suffix of the input, removes only white space, and leaves no white space in front |
| Numbers.DigitPrefixSpec | src/js/classes.js:187 | the digit run is a prefix made only of digits that the next character does not extend |
| Numbers.ParseInt | src/js/classes.js:187 | the result is NaN if and only if, after leading white space and one optional sign, the text does not start with a digit |
| Numbers.ParseIntAfterToString | src/js/classes.js:170-187 | parsing the decimal text of any integer, whatever follows it, gives the integer back |
| Numbers.ParseIntOfNumToString | src/js/classes.js:170-187 | `parseInt(String(x))` is `x` for every score, NaN included, where `String(score)` is `Numbers.NumToString` |
| Numbers.ParseIntZero | src/js/classes.js:187 | the default text "0" parses to 0 |
| Numbers.ParseIntSkipsWhiteSpace | src/js/classes.js:187 | leading white space does not change what is parsed |
| Numbers.ParseIntNoDigits | src/js/classes.js:187 | text whose first character is not a digit, a sign or white space parses to NaN |
| Numbers.IntToStringChars | src/js/classes.js:170 | the decimal text of an integer, which `String(score)` (`Numbers.NumToString`) writes, holds only digits and '-' |
| Cookies.Split | src/js/classes.js:193 | the pieces of a split are at least one, and none holds the separator |
| Cookies.JoinSplit | src/js/classes.js:193 | joining the pieces with the separator gives back the cookie string |
| Cookies.SplitJoin | src/js/classes.js:193 | splitting pieces joined with the separator gives back the pieces, when none holds it |
| Cookies.TrimSpacesSpec | src/js/classes.js:199-201 | only leading spaces are removed, what is left is a suffix of the piece, and it does not start with a space |
| Cookies.FirstMatchFrom | src/js/classes.js:197-205 | the loop from piece i on finds the first piece at or after i that starts with the key; none means no such piece does |
| Cookies.FirstMatch | src/js/classes.js:197-205 | the index found is the first piece that starts with the key; none means no piece does |
| Cookies.ReadCookie | src/js/classes.js:190-208 | null if and only if no trimmed piece starts with `name=`; otherwise the rest of the first such piece, which holds no ';' |
| Cookies.ReadCookieAt | src/js/classes.js:197-205 | the value read comes from the first matching piece |
| Players.ScorePoint | src/js/classes.js:159-161 | the score goes up by one (NaN stays NaN); the name is kept |
| Players.OrElse | src/js/classes.js:186-187 | the text is kept unless it is null or empty, in which case the fallback is used |
| Players.Save | src/js/classes.js:167-171 | both keys are written, the score as its decimal text; no other key changes |
| Players.Load | src/js/classes.js:182-188 | a non-empty stored name is the name, a missing or empty one gives "Player"; a non-empty stored score is parsed with `parseInt`, a missing or empty one gives 0 |
| Players.Wipe | src/js/classes.js:219-222 | both keys are removed; no other key changes |
| Players.LoadFromCookie | src/js/classes.js:189-211 | a non-empty cookie value for the name key is the name, a missing or empty one gives "Player"; a non-empty score value is parsed with `parseInt`, a missing or empty one gives 0; the name never holds ';' unless it is "Player" |
| Players.SaveThenLoad | src/js/classes.js:167-188 | loading after a save gives back the saved player, whenever the name is not empty |
| Players.SaveEmptyNameThenLoad | src/js/classes.js:167-188 | an empty name is saved but loads back as "Player" |
| Players.WipeThenLoad | src/js/classes.js:182-222 | after a wipe, loading gives ("Player", 0), whatever the store held |
| Players.SaveTwice | src/js/classes.js:167-171 | a later save overwrites an earlier one |
| Players.WipeAfterSave | src/js/classes.js:167-222 | a wipe undoes everything a save wrote |
| Players.DefaultNameIff | test/classes.js:169-177 | the default player counts as unnamed and a player named "Foo Bar" does not |
| Players.LoadedDefaultIff | src/js/classes.js:151-153 | `isDefaultName` (`Players.IsDefaultName`) holds for a loaded player exactly when the stored name is missing, empty, or "Player" itself |
| Players.MalformedScoreLoadsAsNaN | src/js/classes.js:187 | a stored score "abc" loads as NaN |
| Players.LoadFromEmptyCookie | src/js/classes.js:189-211 | an empty cookie string yields ("Player", 0) |
| Players.CookieStringPieces | src/js/classes.js:193 | the cookie string of a name and a score splits into the name piece and the score piece |
| Players.CookieStringName | src/js/classes.js:190-210 | the name is read back from such a cookie string |
| Players.CookieStringScore | src/js/classes.js:190-211 | the score text is read back from the second piece, because the first does not start with the score key |
| Players.LoadFromCookieString | src/js/classes.js:189-211 | the cookie fallback reads a "name=…; score=…" string back into that player |
| Samplers.PickIndex | src/js/classes.js:248 | the index is the floor of draw × count, so it is below the count |
| Samplers.PlayRandom | src/js/classes.js:244-254 | nothing plays for an empty list; whatever plays is the element at `floor(r × length)`, and that element plays exactly when it can |
| Samplers.EveryIndexReachable | src/js/classes.js:248 | every element is chosen by some draw |
| Games.SpawnComponent | src/js/classes.js:309-312 | a new velocity component is -1 exactly when both draws are non-zero and the sign draw exceeds 0.5, and +1 otherwise |
| Games.Centre | src/js/classes.js:304-307 | the surface is centred: on each axis the gaps on the two sides differ by at most one |
| Games.NudgeComponent | src/js/classes.js:349-352 | the nudge is -1 exactly when the draw is at least 0.5 and the component is negative, and +1 otherwise |
| Games.NudgeSurface | src/js/classes.js:348-353 | a surface at or under speed 20 on both axes is accelerated by ±1 per axis; a faster one is left alone |
| Games.NudgeAll | src/js/classes.js:347-355 | every surface is nudged by its own draws, and the order is kept |
| Games.IterateAll | src/js/classes.js:415-418 | every surface ticks in the current field, and the order is kept |
| Games.TriggerPlayerChange | src/js/classes.js:289-293 | the observer is called with the current player exactly when it is installed |
| Games.AddSurface | src/js/classes.js:300-323 | one centred surface with ±1 velocity (`Games.Spawn`) is put in front; the others and the rest of the game are kept; validity and containment are preserved |
| Games.NewGame | src/js/classes.js:263-283 | the player is loaded from the store; the only surface is the centred ±1 surface `addSurface` builds; the store, samples and field are the given ones; the timer is off; no callback is installed |
| Games.SetField | src/js/classes.js:274-280 | the field follows the window and nothing else changes; growing the field keeps surfaces inside |
| Games.NamePlayer | src/js/classes.js:330-335 | the player becomes (name, 0); the store is exactly the old store after `save`, so loading gives the player back ("Player" for an empty name); other keys are kept; the observer is called once, if installed |
| Games.NamePlayerTwice | src/js/classes.js:330-335 | naming again with the same name leaves the same game |
| Games.ScorePoint | src/js/classes.js:341-356 | the score goes up by one; every surface follows the nudge law; the sample at `floor(r × length)` plays exactly when the list is non-empty and it can play, and nothing else plays; the store, samples, field, timer and callbacks are untouched; validity and containment are preserved |
| Games.Start | src/js/classes.js:362-380 | a default-named player with `introduce` installed is introduced and nothing else changes; otherwise the timer runs and nothing else changes |
| Games.Pause | src/js/classes.js:403-406 | the timer stops and nothing else changes |
| Games.Reset | src/js/classes.js:386-397 | the timer is off; the player is ("Player", 0); the saved keys are gone and no other key changes; the only surface is the centred ±1 surface `addSurface` builds |
| Games.Iterate | src/js/classes.js:412-419 | every surface ticks in the field, and only the surfaces change; validity and containment are preserved |
| Games.ClickSurface | src/js/classes.js:314-317 | the game after a click is the game after scoring a point; its effects are scoring's sound followed by the observer's notification, which comes exactly when the observer is installed |
| Games.PauseIdempotent | src/js/classes.js:403-406 | pausing twice is pausing once |
| Games.StartIdempotent | src/js/classes.js:372-379 | starting a started game changes nothing more |
| Games.IntroduceThenStart | src/js/classes.js:362-380 | an unnamed player is introduced without starting the timer; once named, start runs it |
| Games.NudgeSlowsIff | src/js/classes.js:348-352 | a nudge lowers a component's speed if and only if the component is negative and its draw is below 0.5 |
| Games.ScorePointCanSlowDown | src/js/classes.js:348-352 | a concrete surface whose horizontal speed drops from 5 to 4 |
| Games.TicksStayContained | src/js/classes.js:412-419 | however many ticks run, a contained game stays contained and only its surfaces change |
| Games.ResetAfterAddingSurfaces | test/classes.js:346-362 | after two added surfaces and a start, reset leaves one surface, ("Player", 0) and no timer |
| Games.NewGameThenAddSurface | test/classes.js:281-293 | a new game has one surface; adding one makes two, the new one in front with both components non-zero |
| App.Descriptor | src/js/app.js:39-54 | the mood for scores 0 to 8 followed by a full stop; "ready to kill." for every other score, NaN included |
| App.Instructions | src/js/app.js:50-63 | the instructions line that `updateLabels` (`App.UpdateLabels`, which pairs it with `App.Descriptor`) draws: the fixed text above 10 points; otherwise the player's name when it is not the default; otherwise the plain request |
| App.InstructionsIdentifyCase | src/js/app.js:56-62 | the fixed text appears exactly above 10 points, and the plain request exactly for an unnamed player at 10 points or fewer |
| App.DescriptorSaturates | src/js/app.js:52 | from 8 points on, and for negative or NaN scores, the mood is "ready to kill." |
| App.DescriptorDistinct | src/js/app.js:39-54 | different scores from 0 to 8 show different moods |
| App.Boot | src/js/app.js:36-102 | the page builds the game from the given store, samples and field with one centred ±1 surface, draws the labels for the loaded player, and installs both callbacks; the timer is off |
| App.OnPlayerChange | src/js/app.js:67-78 | the labels are redrawn; from 1 point the game starts; from 9 points the centred ±1 surface `addSurface` builds is put in front of the old ones; only the timer and the surface list can change, so the player, store, samples, field and callbacks are kept |
| App.Click | src/js/classes.js:314-317 | after a click the labels show the scored player; with a point, a named player has the timer running and an unnamed one is asked for a name while the timer stays as it was; without a point (NaN) the timer stays as it was; the effects are the click's sound and notification followed by the page's reaction; the centred ±1 surface is added in front of the nudged ones exactly when the new score is at least 9; only the score, the surfaces and the timer change, so the page stays wired for the next click; validity and containment are preserved |
| App.AcceptName | src/js/app.js:95-101 | accepting a name names the player and shows "bored." with the name in the instructions |
| App.ResetButton | src/js/app.js:115-122 | the reset button resets the game and shows "bored." and "Please pet happycat." |
| App.PauseButton | src/js/app.js:104-113 | only the timer can change; an inactive button stops it; an active one runs it, unless an unnamed player is introduced instead |
| App.FirstVisit | src/js/app.js:36-65 | with nothing saved, the page starts paused with the default player and shows "bored." and "Please pet happycat." |
| App.FirstClickIntroduces | src/js/app.js:67-78 | an unnamed player's first click scores 1, asks for the name, leaves the timer off and shows "alert." |
| App.NamingKeepsTimer | src/js/app.js:67-78 | naming the player neither starts the timer nor adds a surface |
| App.NinthPointAddsSurface | src/js/app.js:67-78 | a named player's click from 8 points starts the timer, adds a surface and shows "ready to kill." |

## Left out

- Rendering is not modelled: the DOM nodes, CSS positioning, `update`, the drag guard, and the classes on the pause and reset buttons. None of it affects the game state.
- The 16 ms interval is a flag. One firing is `Games.Iterate`, and `Games.Ticks` counts firings.
- The window's resize subscription is `Games.SetField`, called by whoever owns the window.
- `Math.random()` is a parameter in [0, 1). Its distribution is not modelled.
- `scorePoint` draws twice, once per axis, for each surface at or under the speed cap, in list order; the `&&` guard skips the draws of a faster surface. `playRandom` draws only for a non-empty list. The model hands every surface its own pair of draws and `playRandom` one draw, and ignores the draws that the source would not make, which covers the same outcomes.
- Audio playback itself is outside the model. Only which sample is played is modelled.
- Numbers are unbounded integers, and `String(x)` is modelled only for integers and NaN. Fractional positions do not arise from the modelled operations. `parseInt` of stored text can give two values the model does not have:
  - For "-0" it gives `-0`, which the model reads as 0. Every use the game makes of the score (`+ 1`, the comparisons, `labelMap[score]`, `String`) treats `-0` like 0.
  - A digit run above 2^53 is rounded to the nearest double in the source. `Numbers.ParseInt` keeps it exact.
- The cookie branches of `save` and `wipeSave` are not modelled. They assign to `document.cookies`, a property the browser ignores, so they persist nothing.
- Both branches of `load` are modelled, as `Players.Load` and `Players.LoadFromCookie`. Which branch runs depends on whether local storage throws, which the model does not decide.
- Games.NewGame, Games.NamePlayer and Games.Reset assume that local storage never throws: they always use `Players.Load`, `Players.Save` and `Players.Wipe` on the map, never the cookie fallback.
- The name dialog's markup is not modelled, nor the disabling of its accept button for an empty name. `App.AcceptName` accepts any name, and an empty name is covered by `Players.SaveEmptyNameThenLoad`.
- Each `introduce` call installs one more accept handler, so one click may name the player several times. `Games.NamePlayerTwice` shows that the repeats leave the same game. Only their repeated callbacks are not modelled.
- `src/js/views.js`, `src/js/models.js` and `src/js/dependencies.js` are not part of this model.

=== FILE: app.dfy ===
/**
 * The page driver (src/js/app.js) without its DOM: the two texts it shows
 * for the player, and how it reacts to a player change, a click on a
 * surface, the name dialog, the reset button and the pause button.
 * Showing and hiding elements and toggling button classes are left to the
 * page.
 */
module App {
  import opened Wrappers
  import opened Numbers
  import opened Players
  import opened Vectors
  import opened Samplers
  import opened Games

  /** The moods, one per score from 0 to 8. */
  const LabelMap: seq<string> :=
    ["bored", "alert", "playful", "happy", "excited", "over-excited", "annoyed", "angry", "ready to kill"]

  const Overwhelmed: string := "oh god how did this get here I am not good with computer"

  /** The score descriptor and the instructions line. */
  datatype Labels = Labels(descriptor: string, instructions: string)

  /** What a handler leaves behind: the game, the labels on the page, and the callbacks it caused. */
  datatype Reaction = Reaction(game: Game, labels: Labels, effects: seq<Effect>)

  /** `labelMap[score]`: undefined (None) unless the score is an index of the list. */
  function LabelAt(score: Num): Option<string> {
    if score.Int? && 0 <= score.value < |LabelMap| then Some(LabelMap[score.value]) else None
  }

  /** `(labelMap[score] || labelMap[labelMap.length - 1]) + "."`. */
  function Descriptor(score: Num): (text: string)
    ensures score.Int? && 0 <= score.value < |LabelMap| ==> text == LabelMap[score.value] + "."
    ensures !(score.Int? && 0 <= score.value < |LabelMap|) ==> text == "ready to kill."
  {
    OrElse(LabelAt(score), LabelMap[|LabelMap| - 1]) + "."
  }

  /** The instructions line: past 10 points a fixed text, else the player's name if known. */
  function Instructions(p: Player): (text: string)
    ensures AtLeast(p.score, 11) ==> text == Overwhelmed
    ensures !AtLeast(p.score, 11) && !IsDefaultName(p) ==> text == p.name + ", please pet happycat."
    ensures !AtLeast(p.score, 11) && IsDefaultName(p) ==> text == "Please pet happycat."
  {
    if AtLeast(p.score, 11) then Overwhelmed
    else if !IsDefaultName(p) then p.name + ", please pet happycat."
    else "Please pet happycat."
  }

  /** `updateLabels`. */
  function UpdateLabels(p: Player): Labels {
    Labels(Descriptor(p.score), Instructions(p))
  }

  /** The page installs both callbacks right after building the game. */
  predicate Wired(g: Game) {
    g.observed && g.introduces
  }

  /** Page start-up: build the game, install the callbacks, draw the labels. */
  function Boot(store: Storage, samples: seq<AudioHandle>, field: Size, dx: Draw, dy: Draw): (r: Reaction)
    requires ValidDraw(dx) && ValidDraw(dy)
    ensures Wired(r.game) && Valid(r.game) && !r.game.timerActive && |r.game.surfaces| == 1
    ensures r.game.player == Load(store)
    ensures r.game.store == store && r.game.samples == samples && r.game.field == field
    ensures r.game.surfaces == [Spawn(field, dx, dy)]
    ensures r.labels == UpdateLabels(Load(store)) && r.effects == []
  {
    var g := NewGame(store, samples, field, dx, dy).(observed := true, introduces := true);
    Reaction(g, UpdateLabels(g.player), [])
  }

  /**
   * The `onPlayerChange` handler: redraw the labels, start the game from
   * the first point on, and add a surface from the ninth point on.
   */
  function OnPlayerChange(g: Game, dx: Draw, dy: Draw): (r: Reaction)
    requires ValidDraw(dx) && ValidDraw(dy)
    ensures r.labels == UpdateLabels(g.player)
    ensures r.game.player == g.player && r.game.store == g.store && r.game.field == g.field
    ensures !AtLeast(g.player.score, 1) ==> r.game == g && r.effects == []
    ensures AtLeast(g.player.score, 1) ==>
      r.effects == Start(g).effects && r.game.timerActive == Start(g).game.timerActive
    ensures AtLeast(g.player.score, |LabelMap|) ==>
      && |r.game.surfaces| == |g.surfaces| + 1 && r.game.surfaces[1..] == g.surfaces
      && r.game.surfaces[0] == Spawn(g.field, dx, dy)
    ensures !AtLeast(g.player.score, |LabelMap|) ==> r.game.surfaces == g.surfaces
    ensures r.game.(surfaces := g.surfaces, timerActive := g.timerActive) == g
    ensures Valid(g) ==> Valid(r.game)
    ensures Contained(g) ==> Contained(r.game)
  {
    var labels := UpdateLabels(g.player);
    if !AtLeast(g.player.score, 1) then Reaction(g, labels, [])
    else
      var started := Start(g);
      if AtLeast(g.player.score, |LabelMap|) then Reaction(AddSurface(started.game, dx, dy), labels, started.effects)
      else Reaction(started.game, labels, started.effects)
  }

  /** A click on a surface: the game scores, tells the page, and the page reacts. */
  function Click(g: Game, sampleDraw: real, nudges: seq<Nudge>, dx: Draw, dy: Draw): (r: Reaction)
    requires Wired(g)
    requires IsRandom(sampleDraw) && |nudges| == |g.surfaces| && ValidNudges(nudges)
    requires ValidDraw(dx) && ValidDraw(dy)
    ensures var scored := Games.ScorePoint(g, sampleDraw, nudges).game;
      && r.game.player == scored.player
      && r.labels == UpdateLabels(scored.player)
      && PlayerChanged(scored.player) in r.effects
      && (AtLeast(scored.player.score, 1) && !IsDefaultName(g.player) ==> r.game.timerActive)
      && (|r.game.surfaces| == |g.surfaces| + 1 <==> AtLeast(scored.player.score, |LabelMap|))
      && (!AtLeast(scored.player.score, |LabelMap|) ==> r.game.surfaces == scored.surfaces)
      && (AtLeast(scored.player.score, |LabelMap|) ==>
            r.game.surfaces[1..] == scored.surfaces && r.game.surfaces[0] == Spawn(g.field, dx, dy))
      && (AtLeast(scored.player.score, 1) && IsDefaultName(g.player) ==>
            r.game.timerActive == g.timerActive && Introduce in r.effects)
      && (!AtLeast(scored.player.score, 1) ==> r.game.timerActive == g.timerActive)
    ensures r.effects == ClickSurface(g, sampleDraw, nudges).effects
                         + OnPlayerChange(ClickSurface(g, sampleDraw, nudges).game, dx, dy).effects
    ensures r.game.(player := g.player, surfaces := g.surfaces, timerActive := g.timerActive) == g
    ensures Wired(r.game)
    ensures Valid(g) ==> Valid(r.game)
    ensures Contained(g) ==> Contained(r.game)
  {
    var clicked := ClickSurface(g, sampleDraw, nudges);
    var reacted := OnPlayerChange(clicked.game, dx, dy);
    reacted.(effects := clicked.effects + reacted.effects)
  }

  /** The accept button of the name dialog: name the player; the page then reacts. */
  function AcceptName(g: Game, name: string, dx: Draw, dy: Draw): (r: Reaction)
    requires Wired(g) && ValidDraw(dx) && ValidDraw(dy)
    ensures r.game == NamePlayer(g, name).game
    ensures r.labels == Labels("bored.", if name == DefaultName then "Please pet happycat." else name + ", please pet happycat.")
    ensures r.effects == [PlayerChanged(Player(name, Int(0)))]
  {
    var named := NamePlayer(g, name);
    var reacted := OnPlayerChange(named.game, dx, dy);
    reacted.(effects := named.effects + reacted.effects)
  }

  /** The reset button: reset the game and redraw the labels for the fresh player. */
  function ResetButton(g: Game, dx: Draw, dy: Draw): (r: Reaction)
    requires ValidDraw(dx) && ValidDraw(dy)
    ensures r.game == Reset(g, dx, dy)
    ensures r.labels == Labels("bored.", "Please pet happycat.")
    ensures r.effects == []
  {
    var reset := Reset(g, dx, dy);
    Reaction(reset, UpdateLabels(reset.player), [])
  }

  /** The pause button: start when it is toggled on, pause when it is toggled off. */
  function PauseButton(g: Game, active: bool): (r: Outcome)
    ensures r.game.(timerActive := g.timerActive) == g
    ensures !active ==> !r.game.timerActive && r.effects == []
    ensures active && !(IsDefaultName(g.player) && g.introduces) ==> r.game.timerActive && r.effects == []
    ensures active && IsDefaultName(g.player) && g.introduces ==> r.game == g && r.effects == [Introduce]
  {
    if active then Start(g) else Outcome(Pause(g), [])
  }

  // ---------------------------------------------------------------------
  // Properties
  // ---------------------------------------------------------------------

  /** From eight points on, and for anything that is not a score index, the mood is "ready to kill". */
  lemma DescriptorSaturates(score: Num)
    requires !(score.Int? && 0 <= score.value < 8)
    ensures Descriptor(score) == "ready to kill."
  {
  }

  /** Helper: appending the full stop keeps different texts different. */
  lemma FullStopKeepsDistinct(x: string, y: string)
    requires x != y
    ensures x + "." != y + "."
  {
    if |x| == |y| {
      var i :| 0 <= i < |x| && x[i] != y[i];
      assert (x + ".")[i] != (y + ".")[i];
    }
  }

  /** Each score from 0 to 8 has its own mood. */
  lemma DescriptorDistinct(a: int, b: int)
    requires 0 <= a < b <= 8
    ensures Descriptor(Int(a)) != Descriptor(Int(b))
  {
    FullStopKeepsDistinct(LabelMap[a], LabelMap[b]);
  }

  /** The first visit: with nothing saved, the page shows the default player's labels. */
  lemma FirstVisit(samples: seq<AudioHandle>, field: Size, a: Draw, b: Draw)
    requires ValidDraw(a) && ValidDraw(b)
    ensures var booted := Boot(map[], samples, field, a, b);
      && booted.game.player == DefaultPlayer
      && !booted.game.timerActive && Wired(booted.game)
      && booted.labels == Labels("bored.", "Please pet happycat.")
  {
    WipeThenLoad(map[]);
    assert Wipe(map[]) == map[];
  }

  /**
   * The first click of an unnamed player scores 1, asks for the player's
   * name, and does not start the timer.
   */
  lemma FirstClickIntroduces(g: Game, sampleDraw: real, nudges: seq<Nudge>, a: Draw, b: Draw)
    requires Wired(g) && g.player == DefaultPlayer && !g.timerActive
    requires IsRandom(sampleDraw) && |nudges| == |g.surfaces| && ValidNudges(nudges)
    requires ValidDraw(a) && ValidDraw(b)
    ensures var clicked := Click(g, sampleDraw, nudges, a, b);
      && clicked.game.player == Player(DefaultName, Int(1))
      && !clicked.game.timerActive
      && Introduce in clicked.effects
      && clicked.labels == Labels("alert.", "Please pet happycat.")
  {
    var scored := Games.ScorePoint(g, sampleDraw, nudges).game;
    assert Start(scored) == Outcome(scored, [Introduce]);
  }

  /** The instructions line tells which case holds: each of its three texts arises in one case only. */
  lemma InstructionsIdentifyCase(p: Player)
    ensures Instructions(p) == Overwhelmed <==> AtLeast(p.score, 11)
    ensures Instructions(p) == "Please pet happycat." <==> !AtLeast(p.score, 11) && IsDefaultName(p)
  {
    var greeting := p.name + ", please pet happycat.";
    assert greeting[|greeting| - 1] == '.';
    assert Overwhelmed[|Overwhelmed| - 1] == 'r';
    assert |greeting| > |"Please pet happycat."|;
  }

  /** Naming the player does not start the timer: it waits for the next click. */
  lemma NamingKeepsTimer(g: Game, name: string, a: Draw, b: Draw)
    requires Wired(g) && ValidDraw(a) && ValidDraw(b)
    ensures AcceptName(g, name, a, b).game.timerActive == g.timerActive
    ensures AcceptName(g, name, a, b).game.surfaces == g.surfaces
  {
  }

  /** A named player's click from eight points starts the timer and adds a surface. */
  lemma NinthPointAddsSurface(g: Game, sampleDraw: real, nudges: seq<Nudge>, a: Draw, b: Draw)
    requires Wired(g) && !IsDefaultName(g.player) && g.player.score == Int(8)
    requires IsRandom(sampleDraw) && |nudges| == |g.surfaces| && ValidNudges(nudges)
    requires ValidDraw(a) && ValidDraw(b)
    ensures var r := Click(g, sampleDraw, nudges, a, b);
      && r.game.timerActive
      && |r.game.surfaces| == |g.surfaces| + 1
      && r.labels == Labels("ready to kill.", g.player.name + ", please pet happycat.")
  {
  }
}

=== FILE: cookies.dfy ===
/**
 * The cookie reader `Player.load` falls back on when local storage throws
 * (the inner `readCookie` of src/js/classes.js): split the cookie string
 * on `;`, strip each piece's leading spaces, and return what follows
 * `name=` in the first piece that starts with it.
 */
module Cookies {
  import opened Wrappers

  /**
   * `s.split(sep)`: the pieces between separators, in order. There is one
   * more piece than there are separators, so "" gives [""] and a trailing
   * separator gives a trailing empty piece.
   */
  function Split(s: string, sep: char): (parts: seq<string>)
    ensures |parts| >= 1
    ensures forall i :: 0 <= i < |parts| ==> sep !in parts[i]
  {
    if |s| == 0 then [""]
    else
      var rest := Split(s[1..], sep);
      if s[0] == sep then [""] + rest
      else [[s[0]] + rest[0]] + rest[1..]
  }

  /** The pieces glued back together with `sep` between neighbours. */
  function Join(parts: seq<string>, sep: char): string
    requires |parts| >= 1
  {
    if |parts| == 1 then parts[0] else parts[0] + [sep] + Join(parts[1..], sep)
  }

  /** `c` with its leading U+0020 spaces removed (other white space is kept). */
  function TrimSpaces(c: string): string {
    if |c| > 0 && c[0] == ' ' then TrimSpaces(c[1..]) else c
  }

  /** Trimming removes exactly the leading run of spaces: what is left is a suffix. */
  lemma {:induction false} TrimSpacesSpec(c: string)
    ensures var r := TrimSpaces(c);
      && |r| <= |c| && r == c[|c| - |r|..]
      && (forall i :: 0 <= i < |c| - |r| ==> c[i] == ' ')
      && (|r| == 0 || r[0] != ' ')
    decreases |c|
  {
    if |c| > 0 && c[0] == ' ' {
      TrimSpacesSpec(c[1..]);
      var r := TrimSpaces(c);
      assert c[1..][|c| - 1 - |r|..] == c[|c| - |r|..];
      assert forall i :: 1 <= i < |c| - |r| ==> c[i] == c[1..][i - 1];
    }
  }

  /** A piece that does not start with a space is not trimmed. */
  lemma TrimSpacesNoSpace(c: string)
    requires |c| > 0 && c[0] != ' '
    ensures TrimSpaces(c) == c
  {
  }

  /** One leading space is trimmed away. */
  lemma TrimSpacesOneSpace(c: string)
    requires |c| > 0 && c[0] != ' '
    ensures TrimSpaces(" " + c) == c
  {
    assert (" " + c)[1..] == c;
  }

  /** Whether the piece, once its leading spaces are gone, starts with `key`. */
  predicate StartsWithKey(piece: string, key: string) {
    key <= TrimSpaces(piece)
  }

  /** No piece starts with `key`. */
  predicate NoMatch(pieces: seq<string>, key: string) {
    forall j :: 0 <= j < |pieces| ==> !StartsWithKey(pieces[j], key)
  }

  /** `i` is the first piece that starts with `key`. */
  predicate IsFirstMatch(pieces: seq<string>, key: string, i: int) {
    && 0 <= i < |pieces|
    && StartsWithKey(pieces[i], key)
    && forall j :: 0 <= j < i ==> !StartsWithKey(pieces[j], key)
  }

  /**
   * The loop of `readCookie` from piece `i` on: the first piece at or
   * after `i` that starts with `key`, if any.
   */
  function FirstMatchFrom(pieces: seq<string>, key: string, i: nat): (r: Option<nat>)
    requires i <= |pieces|
    ensures r.Some? ==> && i <= r.value < |pieces| && StartsWithKey(pieces[r.value], key)
                        && forall j :: i <= j < r.value ==> !StartsWithKey(pieces[j], key)
    ensures r.None? ==> forall j :: i <= j < |pieces| ==> !StartsWithKey(pieces[j], key)
    decreases |pieces| - i
  {
    if i == |pieces| then None
    else if StartsWithKey(pieces[i], key) then Some(i)
    else FirstMatchFrom(pieces, key, i + 1)
  }

  /** The position of the first piece that starts with `key`, if any. */
  function FirstMatch(pieces: seq<string>, key: string): (r: Option<nat>)
    ensures r.Some? ==> IsFirstMatch(pieces, key, r.value)
    ensures r.None? ==> NoMatch(pieces, key)
  {
    FirstMatchFrom(pieces, key, 0)
  }

  /** A matching piece at `i` means not every piece misses. */
  lemma SomePieceMatches(pieces: seq<string>, key: string, i: nat)
    requires i < |pieces| && StartsWithKey(pieces[i], key)
    ensures !NoMatch(pieces, key)
  {
  }

  /**
   * `readCookie(name)` applied to the cookie string: the value of the first
   * `name=value` piece, or None (JavaScript's null).
   */
  function ReadCookie(cookie: string, name: string): (r: Option<string>)
    ensures r.None? <==> NoMatch(Split(cookie, ';'), name + "=")
    ensures r.Some? ==> exists i :: IsFirstMatch(Split(cookie, ';'), name + "=", i)
                                 && r.value == TrimSpaces(Split(cookie, ';')[i])[|name| + 1..]
    ensures r.Some? ==> ';' !in r.value
  {
    var key := name + "=";
    var pieces := Split(cookie, ';');
    var found := FirstMatch(pieces, key);
    if found.None? then None
    else
      var i := found.value;
      TrimSpacesSpec(pieces[i]);
      SomePieceMatches(pieces, name + "=", i);
      Some(TrimSpaces(pieces[i])[|key|..])
  }

  /** The first matching piece determines the value read. */
  lemma ReadCookieAt(cookie: string, name: string, i: nat)
    requires IsFirstMatch(Split(cookie, ';'), name + "=", i)
    ensures ReadCookie(cookie, name) == Some(TrimSpaces(Split(cookie, ';')[i])[|name| + 1..])
  {
  }

  // ---------------------------------------------------------------------
  // Split and Join are inverse to each other
  // ---------------------------------------------------------------------

  /** Splitting and re-joining gives back the original string. */
  lemma {:induction false} JoinSplit(s: string, sep: char)
    ensures Join(Split(s, sep), sep) == s
    decreases |s|
  {
    if |s| > 0 {
      var rest := Split(s[1..], sep);
      JoinSplit(s[1..], sep);
      if s[0] == sep {
        assert Split(s, sep)[1..] == rest;
      } else {
        var parts := Split(s, sep);
        assert parts[1..] == rest[1..];
        if |rest| == 1 {
          assert parts == [[s[0]] + rest[0]];
        } else {
          assert rest == [rest[0]] + rest[1..];
          assert Join(rest, sep) == rest[0] + [sep] + Join(rest[1..], sep);
        }
      }
    }
  }

  /** Splitting a piece that holds no separator gives just that piece. */
  lemma {:induction false} SplitNoSeparator(p: string, sep: char)
    requires sep !in p
    ensures Split(p, sep) == [p]
    decreases |p|
  {
    if |p| > 0 {
      SplitNoSeparator(p[1..], sep);
      assert [p[0]] + p[1..] == p;
    }
  }

  /** A piece without separators followed by a separator splits off first. */
  lemma {:induction false} SplitAtSeparator(p: string, sep: char, t: string)
    requires sep !in p
    ensures Split(p + [sep] + t, sep) == [p] + Split(t, sep)
    decreases |p|
  {
    var s := p + [sep] + t;
    if |p| == 0 {
      assert s[1..] == t;
    } else {
      assert s[1..] == p[1..] + [sep] + t;
      SplitAtSeparator(p[1..], sep, t);
      assert [p[0]] + p[1..] == p;
    }
  }

  /** Joining pieces that hold no separator and splitting gives back the pieces. */
  lemma {:induction false} SplitJoin(parts: seq<string>, sep: char)
    requires |parts| >= 1
    requires forall i :: 0 <= i < |parts| ==> sep !in parts[i]
    ensures Split(Join(parts, sep), sep) == parts
    decreases |parts|
  {
    if |parts| == 1 {
      SplitNoSeparator(parts[0], sep);
    } else {
      SplitAtSeparator(parts[0], sep, Join(parts[1..], sep));
      SplitJoin(parts[1..], sep);
    }
  }
}

=== FILE: games.dfy ===
/**
 * The game (`HappycatGame` in src/js/classes.js): one player, the sound
 * effects, the surfaces (newest first), the playing field, the tick timer
 * and the contents of local storage that the player is saved to.
 *
 * The source mutates one object; here every operation is a function from
 * the old state to the new one. The timer is a flag (on = a 16 ms
 * interval calls `Iterate`), each `Math.random()` value is a parameter,
 * and the two callbacks the page installs are flags saying whether they
 * are installed; calling them is reported as an `Effect`.
 */
module Games {
  import opened Vectors
  import opened Numbers
  import opened Surfaces
  import opened Players
  import opened Samplers

  /** The two `Math.random()` values `addSurface` spends on one velocity component. */
  datatype Draw = Draw(magnitude: real, sign: real)

  /** The `Math.random()` values `scorePoint` spends on one surface, one per axis. */
  datatype Nudge = Nudge(x: real, y: real)

  predicate ValidDraw(d: Draw) {
    IsRandom(d.magnitude) && IsRandom(d.sign)
  }

  predicate ValidNudges(ns: seq<Nudge>) {
    forall i :: 0 <= i < |ns| ==> IsRandom(ns[i].x) && IsRandom(ns[i].y)
  }

  /** What an operation asks of the world outside the game state. */
  datatype Effect =
    | PlayerChanged(player: Player)   // the `onPlayerChange` callback ran with this player
    | Introduce                       // the `introduce` callback ran
    | PlaySample(index: nat)          // this sound effect was played

  datatype Game = Game(
    player: Player,
    samples: seq<AudioHandle>,
    surfaces: seq<Surface>,
    field: Size,
    timerActive: bool,
    store: Storage,
    observed: bool,     // an `onPlayerChange` callback is installed
    introduces: bool)   // an `introduce` callback is installed

  datatype Outcome = Outcome(game: Game, effects: seq<Effect>)

  // ---------------------------------------------------------------------
  // Random choices, read as the source's expressions parse
  // ---------------------------------------------------------------------

  /**
   * `Math.ceil((r1 * 3) * (r2 > 0.5) ? -1 : 1)`. The conditional operator
   * binds loosest, so the product only picks the sign and the component is
   * always -1 or +1; it is -1 when both draws make the product non-zero.
   */
  function SpawnComponent(d: Draw): (c: int)
    requires ValidDraw(d)
    ensures c == -1 || c == 1
    ensures c == -1 <==> d.magnitude > 0.0 && d.sign > 0.5
  {
    Ceil(if Truthy((d.magnitude * 3.0) * BoolToNumber(d.sign > 0.5)) then -1.0 else 1.0)
  }

  /**
   * `Math.floor(r * 2) * (v < 0) ? -1 : 1`. Again the conditional binds
   * loosest: the change is -1 when the draw falls in the upper half and
   * the component is negative, and +1 in every other case.
   */
  function NudgeComponent(r: real, v: int): (delta: int)
    requires IsRandom(r)
    ensures delta == -1 || delta == 1
    ensures delta == -1 <==> r >= 0.5 && v < 0
  {
    var bit := (r * 2.0).Floor;
    assert bit == 0 || bit == 1;
    if Truthy((bit as real) * BoolToNumber(v < 0)) then -1 else 1
  }

  // ---------------------------------------------------------------------
  // Surfaces
  // ---------------------------------------------------------------------

  /** `Math.floor(field / 2 - size / 2)` per axis: the gaps left and right differ by at most one. */
  function Centre(field: Size, size: Size): (p: Vec2)
    ensures 0 <= field.w - size.w - 2 * p.x <= 1
    ensures 0 <= field.h - size.h - 2 * p.y <= 1
  {
    Vec2((field.w as real / 2.0 - size.w as real / 2.0).Floor,
         (field.h as real / 2.0 - size.h as real / 2.0).Floor)
  }

  /** The surface `addSurface` builds: centred in the field, moving diagonally at speed 1. */
  function Spawn(field: Size, dx: Draw, dy: Draw): (s: Surface)
    requires ValidDraw(dx) && ValidDraw(dy)
    ensures s.size == DefaultSize
    ensures 0 <= field.w - s.size.w - 2 * s.position.x <= 1
    ensures 0 <= field.h - s.size.h - 2 * s.position.y <= 1
    ensures s.velocity.x == SpawnComponent(dx) && s.velocity.y == SpawnComponent(dy)
  {
    var placed := SetPosition(NewSurface(), Centre(field, NewSurface().size));
    SetVelocity(placed, Vec2(SpawnComponent(dx), SpawnComponent(dy)))
  }

  /** Surfaces at or below this speed on both axes are nudged by ±1 per axis when a point is scored. */
  const SpeedCap: int := 20

  predicate UnderSpeedCap(s: Surface) {
    Abs(s.velocity.x) <= SpeedCap && Abs(s.velocity.y) <= SpeedCap
  }

  /**
   * The change scoring a point may make to one surface: at or below the
   * cap on both axes, each velocity component moves by exactly one,
   * upwards when it is not negative; faster than the cap on either axis,
   * nothing changes.
   */
  predicate NudgeLaw(before: Surface, after: Surface) {
    if UnderSpeedCap(before) then
      && after.position == before.position
      && after.size == before.size
      && Abs(after.velocity.x - before.velocity.x) == 1
      && Abs(after.velocity.y - before.velocity.y) == 1
      && (before.velocity.x >= 0 ==> after.velocity.x == before.velocity.x + 1)
      && (before.velocity.y >= 0 ==> after.velocity.y == before.velocity.y + 1)
    else
      after == before
  }

  function NudgeSurface(s: Surface, n: Nudge): (r: Surface)
    requires IsRandom(n.x) && IsRandom(n.y)
    ensures NudgeLaw(s, r)
  {
    if UnderSpeedCap(s) then
      Accelerate(s, Vec2(NudgeComponent(n.x, s.velocity.x), NudgeComponent(n.y, s.velocity.y)))
    else
      s
  }

  /** The loop of `scorePoint` over the list of surfaces. */
  function NudgeAll(ss: seq<Surface>, ns: seq<Nudge>): (r: seq<Surface>)
    requires |ns| == |ss| && ValidNudges(ns)
    ensures |r| == |ss|
    ensures forall i :: 0 <= i < |ss| ==> r[i] == NudgeSurface(ss[i], ns[i])
  {
    if |ss| == 0 then [] else [NudgeSurface(ss[0], ns[0])] + NudgeAll(ss[1..], ns[1..])
  }

  /** The loop of `iterate` over the list of surfaces. */
  function IterateAll(ss: seq<Surface>, field: Size): (r: seq<Surface>)
    ensures |r| == |ss|
    ensures forall i :: 0 <= i < |ss| ==> r[i] == Surfaces.Iterate(ss[i], field)
  {
    if |ss| == 0 then [] else [Surfaces.Iterate(ss[0], field)] + IterateAll(ss[1..], field)
  }

  // ---------------------------------------------------------------------
  // Invariants
  // ---------------------------------------------------------------------

  /** No velocity component ever exceeds this: spawned at 1, nudged only up to the cap plus one. */
  const MaxSpeed: int := SpeedCap + 1

  predicate SurfaceOk(s: Surface) {
    s.size == DefaultSize && Abs(s.velocity.x) <= MaxSpeed && Abs(s.velocity.y) <= MaxSpeed
  }

  /** At least one surface, every one of the default size and within the speed bound. */
  predicate Valid(g: Game) {
    |g.surfaces| >= 1 && forall i :: 0 <= i < |g.surfaces| ==> SurfaceOk(g.surfaces[i])
  }

  /** A field with room for a surface plus twice the largest speed on each axis. */
  predicate Roomy(field: Size) {
    field.w >= DefaultSize.w + 2 * MaxSpeed && field.h >= DefaultSize.h + 2 * MaxSpeed
  }

  /** A valid game in a roomy field with every surface inside it. */
  predicate Contained(g: Game) {
    && Valid(g)
    && Roomy(g.field)
    && forall i :: 0 <= i < |g.surfaces| ==> Inside(g.surfaces[i], g.field)
  }

  // ---------------------------------------------------------------------
  // Operations
  // ---------------------------------------------------------------------

  /** `triggerPlayerChange`: the observer, if installed, sees the current player. */
  function TriggerPlayerChange(g: Game): (effects: seq<Effect>)
    ensures |effects| == if g.observed then 1 else 0
    ensures forall i :: 0 <= i < |effects| ==> effects[i] == PlayerChanged(g.player)
  {
    if g.observed then [PlayerChanged(g.player)] else []
  }

  /** `addSurface`: a new centred surface in front of the others, which are kept as they are. */
  function AddSurface(g: Game, dx: Draw, dy: Draw): (r: Game)
    requires ValidDraw(dx) && ValidDraw(dy)
    ensures |r.surfaces| == |g.surfaces| + 1 && r.surfaces[1..] == g.surfaces
    ensures r.surfaces[0] == Spawn(g.field, dx, dy)
    ensures var s := r.surfaces[0];
      && s.size == DefaultSize
      && 0 <= g.field.w - DefaultSize.w - 2 * s.position.x <= 1
      && 0 <= g.field.h - DefaultSize.h - 2 * s.position.y <= 1
      && (s.velocity.x == -1 || s.velocity.x == 1)
      && (s.velocity.y == -1 || s.velocity.y == 1)
    ensures r.(surfaces := g.surfaces) == g
    ensures Valid(g) ==> Valid(r)
    ensures Contained(g) ==> Contained(r)
  {
    g.(surfaces := [Spawn(g.field, dx, dy)] + g.surfaces)
  }

  /** The constructor: load the player, start paused, with one surface. */
  function NewGame(store: Storage, samples: seq<AudioHandle>, field: Size, dx: Draw, dy: Draw): (r: Game)
    requires ValidDraw(dx) && ValidDraw(dy)
    ensures |r.surfaces| == 1 && r.player == Load(store) && !r.timerActive
    ensures r.surfaces == [Spawn(field, dx, dy)]
    ensures r.store == store && r.field == field && r.samples == samples
    ensures !r.observed && !r.introduces
    ensures Valid(r)
    ensures Roomy(field) ==> Contained(r)
  {
    AddSurface(Game(Load(store), samples, [], field, false, store, false, false), dx, dy)
  }

  /** The resize handler: the field follows the window. */
  function SetField(g: Game, field: Size): (r: Game)
    ensures r.field == field && r.(field := g.field) == g
    ensures Contained(g) && field.w >= g.field.w && field.h >= g.field.h ==> Contained(r)
  {
    g.(field := field)
  }

  /** `namePlayer`: a new name with a score of 0, saved, and the observer told once. */
  function NamePlayer(g: Game, name: string): (r: Outcome)
    ensures r.game.player == Player(name, Int(0))
    ensures r.game.store == Save(Player(name, Int(0)), g.store)
    ensures name != "" ==> Load(r.game.store) == r.game.player
    ensures name == "" ==> Load(r.game.store) == DefaultPlayer
    ensures forall k :: k in g.store && k != NameKey && k != ScoreKey ==>
      k in r.game.store && r.game.store[k] == g.store[k]
    ensures r.effects == if g.observed then [PlayerChanged(Player(name, Int(0)))] else []
    ensures r.game.(player := g.player, store := g.store) == g
  {
    var named := Player(name, Int(0));
    var g' := g.(player := named, store := Save(named, g.store));
    if name != "" then
      SaveThenLoad(named, g.store);
      Outcome(g', TriggerPlayerChange(g'))
    else
      SaveEmptyNameThenLoad(Int(0), g.store);
      Outcome(g', TriggerPlayerChange(g'))
  }

  /**
   * `scorePoint`: one more point, a random sound, and every surface at or
   * under the speed cap nudged. The score is not saved.
   */
  function ScorePoint(g: Game, sampleDraw: real, nudges: seq<Nudge>): (r: Outcome)
    requires IsRandom(sampleDraw) && |nudges| == |g.surfaces| && ValidNudges(nudges)
    ensures r.game.player.name == g.player.name
    ensures g.player.score.Int? ==> r.game.player.score == Int(g.player.score.value + 1)
    ensures g.player.score.NaN? ==> r.game.player.score.NaN?
    ensures |r.game.surfaces| == |g.surfaces|
    ensures forall i :: 0 <= i < |g.surfaces| ==> NudgeLaw(g.surfaces[i], r.game.surfaces[i])
    ensures r.game.(player := g.player, surfaces := g.surfaces) == g
    ensures |g.samples| > 0 && g.samples[PickIndex(|g.samples|, sampleDraw)].canPlay ==>
      r.effects == [PlaySample(PickIndex(|g.samples|, sampleDraw))]
    ensures !(|g.samples| > 0 && g.samples[PickIndex(|g.samples|, sampleDraw)].canPlay) ==> r.effects == []
    ensures |r.effects| <= 1
    ensures forall i :: 0 <= i < |r.effects| ==>
      r.effects[i].PlaySample? && r.effects[i].index < |g.samples| && g.samples[r.effects[i].index].canPlay
    ensures Valid(g) ==> Valid(r.game)
    ensures Contained(g) ==> Contained(r.game)
  {
    var played := PlayRandom(g.samples, sampleDraw);
    var g' := g.(player := Players.ScorePoint(g.player), surfaces := NudgeAll(g.surfaces, nudges));
    Outcome(g', if played.Some? then [PlaySample(played.value)] else [])
  }

  /**
   * `start`: a player still under the default name is introduced instead,
   * when an `introduce` callback is installed, and nothing else happens;
   * otherwise the timer runs (a running timer is left alone).
   */
  function Start(g: Game): (r: Outcome)
    ensures IsDefaultName(g.player) && g.introduces ==> r.game == g && r.effects == [Introduce]
    ensures !(IsDefaultName(g.player) && g.introduces) ==>
      r.game.timerActive && r.game.(timerActive := g.timerActive) == g && r.effects == []
  {
    if IsDefaultName(g.player) && g.introduces then Outcome(g, [Introduce])
    else Outcome(g.(timerActive := true), [])
  }

  /** `pause`: the timer stops; nothing else changes. */
  function Pause(g: Game): (r: Game)
    ensures !r.timerActive && r.(timerActive := g.timerActive) == g
  {
    g.(timerActive := false)
  }

  /**
   * `reset`: pause, wipe and reload the player, drop every surface and add
   * one fresh one.
   */
  function Reset(g: Game, dx: Draw, dy: Draw): (r: Game)
    requires ValidDraw(dx) && ValidDraw(dy)
    ensures |r.surfaces| == 1 && r.player == DefaultPlayer && !r.timerActive
    ensures r.surfaces == [Spawn(g.field, dx, dy)]
    ensures NameKey !in r.store && ScoreKey !in r.store
    ensures r.store.Keys == g.store.Keys - {NameKey, ScoreKey}
    ensures forall k :: k in r.store ==> r.store[k] == g.store[k]
    ensures r.field == g.field && r.samples == g.samples
    ensures r.observed == g.observed && r.introduces == g.introduces
    ensures Valid(r)
    ensures Roomy(g.field) ==> Contained(r)
  {
    var wiped := Wipe(g.store);
    WipeThenLoad(g.store);
    var emptied := Game(Load(wiped), g.samples, [], g.field, false, wiped, g.observed, g.introduces);
    AddSurface(emptied, dx, dy)
  }

  /** `iterate`: one tick for every surface in the current field. */
  function Iterate(g: Game): (r: Game)
    ensures |r.surfaces| == |g.surfaces|
    ensures forall i :: 0 <= i < |g.surfaces| ==> r.surfaces[i] == Surfaces.Iterate(g.surfaces[i], g.field)
    ensures r.(surfaces := g.surfaces) == g
    ensures Valid(g) ==> Valid(r)
    ensures Contained(g) ==> Contained(r)
  {
    g.(surfaces := IterateAll(g.surfaces, g.field))
  }

  /** A click on any surface: score a point, then tell the observer. */
  function ClickSurface(g: Game, sampleDraw: real, nudges: seq<Nudge>): (r: Outcome)
    requires IsRandom(sampleDraw) && |nudges| == |g.surfaces| && ValidNudges(nudges)
    ensures r.game == ScorePoint(g, sampleDraw, nudges).game
    ensures r.effects == ScorePoint(g, sampleDraw, nudges).effects + TriggerPlayerChange(r.game)
    ensures g.observed <==> |r.effects| >= 1 && r.effects[|r.effects| - 1] == PlayerChanged(r.game.player)
    ensures |r.effects| <= 2
  {
    var scored := ScorePoint(g, sampleDraw, nudges);
    Outcome(scored.game, scored.effects + TriggerPlayerChange(scored.game))
  }

  // ---------------------------------------------------------------------
  // Properties
  // ---------------------------------------------------------------------

  /** Pausing twice is the same as pausing once. */
  lemma PauseIdempotent(g: Game)
    ensures Pause(Pause(g)) == Pause(g)
  {
  }

  /** Starting a started game changes nothing more. */
  lemma StartIdempotent(g: Game)
    ensures Start(Start(g).game).game == Start(g).game
  {
  }

  /**
   * The introduction: a player under the default name is introduced and
   * the timer is not started; once named, starting runs the timer.
   */
  lemma IntroduceThenStart(g: Game, name: string)
    requires IsDefaultName(g.player) && g.introduces && !g.timerActive
    requires name != DefaultName
    ensures Start(g) == Outcome(g, [Introduce])
    ensures !Start(g).game.timerActive
    ensures Start(NamePlayer(g, name).game).game.timerActive
  {
  }

  /**
   * Naming the player again with the same name leaves the same game: the
   * page may run its accept handler more than once for one click.
   */
  lemma NamePlayerTwice(g: Game, name: string)
    ensures NamePlayer(NamePlayer(g, name).game, name).game == NamePlayer(g, name).game
  {
    var named := Player(name, Int(0));
    SaveTwice(named, named, g.store);
    assert NamePlayer(g, name).game == g.(player := named, store := Save(named, g.store));
  }

  /**
   * A nudge slows a component down exactly when it is negative and its
   * draw falls in the lower half, so scoring does not always speed things up.
   */
  lemma NudgeSlowsIff(s: Surface, n: Nudge)
    requires IsRandom(n.x) && IsRandom(n.y) && UnderSpeedCap(s)
    ensures Abs(NudgeSurface(s, n).velocity.x) < Abs(s.velocity.x) <==> s.velocity.x < 0 && n.x < 0.5
    ensures Abs(NudgeSurface(s, n).velocity.y) < Abs(s.velocity.y) <==> s.velocity.y < 0 && n.y < 0.5
  {
  }

  /** An instance: a surface moving left and down at speed 5 and 3 slows to 4 horizontally. */
  lemma ScorePointCanSlowDown()
    ensures var s := Surface(Vec2(300, 300), Vec2(-5, 3), DefaultSize);
      NudgeSurface(s, Nudge(0.0, 0.0)).velocity == Vec2(-4, 4)
  {
    assert NudgeComponent(0.0, -5) == 1;
  }

  /** `n` ticks of the timer. */
  function Ticks(g: Game, n: nat): Game
    decreases n
  {
    if n == 0 then g else Ticks(Iterate(g), n - 1)
  }

  /**
   * However long the timer runs, every surface of a contained game stays
   * inside the field, and nothing but the surfaces changes.
   */
  lemma {:induction false} TicksStayContained(g: Game, n: nat)
    requires Contained(g)
    ensures Contained(Ticks(g, n))
    ensures Ticks(g, n).(surfaces := g.surfaces) == g
    decreases n
  {
    if n > 0 {
      TicksStayContained(Iterate(g), n - 1);
    }
  }

  /** The scenario of happycat's tests (test/classes.js): extra surfaces and a named player are all reset away. */
  lemma ResetAfterAddingSurfaces(g: Game, a: Draw, b: Draw, c: Draw, d: Draw)
    requires ValidDraw(a) && ValidDraw(b) && ValidDraw(c) && ValidDraw(d)
    ensures var g3 := AddSurface(AddSurface(g, a, b), c, d);
      && |g3.surfaces| == |g.surfaces| + 2
      && var r := Reset(Start(g3).game, a, b);
      |r.surfaces| == 1 && r.player == DefaultPlayer && !r.timerActive
  {
  }

  /** A new game has one surface; adding one makes two, the newer one in front and moving. */
  lemma NewGameThenAddSurface(store: Storage, samples: seq<AudioHandle>, field: Size, a: Draw, b: Draw, c: Draw, d: Draw)
    requires ValidDraw(a) && ValidDraw(b) && ValidDraw(c) && ValidDraw(d)
    ensures var g := NewGame(store, samples, field, a, b);
      && |g.surfaces| == 1
      && var g2 := AddSurface(g, c, d);
      && |g2.surfaces| == 2 && g2.surfaces[1] == g.surfaces[0]
      && g2.surfaces[0].velocity.x != 0 && g2.surfaces[0].velocity.y != 0
  {
  }
}

=== FILE: numbers.dfy ===
/**
 * The slice of JavaScript number semantics the game relies on: the score
 * is a number that is either an integer or NaN, it is written to storage
 * with `String(score)` and read back with `parseInt(text, 10)`, and the
 * random choices are values of `Math.random()`.
 */
module Numbers {

  /** A score: an integer, or NaN (what parseInt yields for text without digits). */
  datatype Num = Int(value: int) | NaN

  /** `x + k`; NaN absorbs the addition. */
  function Plus(x: Num, k: int): Num {
    match x
    case Int(n) => Int(n + k)
    case NaN => NaN
  }

  /** `x >= k`; every comparison with NaN is false. */
  predicate AtLeast(x: Num, k: int) {
    x.Int? && x.value >= k
  }

  /** A value `Math.random()` can return. */
  predicate IsRandom(r: real) {
    0.0 <= r < 1.0
  }

  /** A boolean operand of `*` converted to a number. */
  function BoolToNumber(b: bool): real {
    if b then 1.0 else 0.0
  }

  /** Truthiness of a (finite) number used as a condition. */
  predicate Truthy(x: real) {
    x != 0.0
  }

  /** `Math.ceil`: the least integer not below `x`. */
  function Ceil(x: real): (c: int)
    ensures x <= c as real < x + 1.0
  {
    -((-x).Floor)
  }

  // ---------------------------------------------------------------------
  // Number to text: String(n)
  // ---------------------------------------------------------------------

  predicate IsDigit(c: char) {
    48 <= c as int <= 57
  }

  predicate AllDigits(s: string) {
    forall i :: 0 <= i < |s| ==> IsDigit(s[i])
  }

  function DigitValue(c: char): nat
    requires IsDigit(c)
  {
    c as int - 48
  }

  function DigitChar(d: nat): (c: char)
    requires d < 10
    ensures IsDigit(c) && DigitValue(c) == d
  {
    (48 + d) as char
  }

  /** The decimal digits of `n`, most significant first, without leading zeros. */
  function NatDigits(n: nat): (s: string)
    ensures |s| >= 1 && AllDigits(s)
    ensures |s| > 1 ==> s[0] != '0'
    decreases n
  {
    if n < 10 then [DigitChar(n)] else NatDigits(n / 10) + [DigitChar(n % 10)]
  }

  /** `String(n)` for an integer number. */
  function IntToString(n: int): string {
    if n < 0 then "-" + NatDigits(-n) else NatDigits(n)
  }

  /** `String(x)`, which is how storage turns a score into text. */
  function NumToString(x: Num): string {
    match x
    case Int(n) => IntToString(n)
    case NaN => "NaN"
  }

  // ---------------------------------------------------------------------
  // Text to number: parseInt(s, 10)
  // ---------------------------------------------------------------------

  /**
   * The characters parseInt skips before the number: ECMAScript's white
   * space (tab, vertical tab, form feed, no-break space, byte order mark
   * and every space separator) and its line terminators.
   */
  predicate IsStrWhiteSpace(c: char) {
    var n := c as int;
    || 0x09 <= n <= 0x0D || n == 0x20 || n == 0xA0 || n == 0x1680
    || 0x2000 <= n <= 0x200A
    || n == 0x2028 || n == 0x2029 || n == 0x202F || n == 0x205F
    || n == 0x3000 || n == 0xFEFF
  }

  /** `s` without its leading white space. */
  function TrimStart(s: string): string {
    if |s| > 0 && IsStrWhiteSpace(s[0]) then TrimStart(s[1..]) else s
  }

  /** Trimming removes exactly the leading run of white space. */
  lemma {:induction false} TrimStartSpec(s: string)
    ensures var r := TrimStart(s);
      && |r| <= |s| && r == s[|s| - |r|..]
      && (forall i :: 0 <= i < |s| - |r| ==> IsStrWhiteSpace(s[i]))
      && (|r| == 0 || !IsStrWhiteSpace(r[0]))
    decreases |s|
  {
    if |s| > 0 && IsStrWhiteSpace(s[0]) {
      TrimStartSpec(s[1..]);
      var r := TrimStart(s);
      assert s[1..][|s| - 1 - |r|..] == s[|s| - |r|..];
      assert forall i :: 1 <= i < |s| - |r| ==> s[i] == s[1..][i - 1];
    }
  }

  /** `s` without one leading `+` or `-`. */
  function DropSign(s: string): string {
    if |s| > 0 && (s[0] == '-' || s[0] == '+') then s[1..] else s
  }

  /** The longest prefix of `s` made of decimal digits. */
  function DigitPrefix(s: string): string {
    if |s| > 0 && IsDigit(s[0]) then [s[0]] + DigitPrefix(s[1..]) else ""
  }

  /** The digit run is a prefix, holds only digits, and cannot be extended. */
  lemma {:induction false} DigitPrefixSpec(s: string)
    ensures var r := DigitPrefix(s);
      && r <= s && AllDigits(r)
      && (|r| == |s| || !IsDigit(s[|r|]))
    decreases |s|
  {
    if |s| > 0 && IsDigit(s[0]) {
      DigitPrefixSpec(s[1..]);
      var r := DigitPrefix(s[1..]);
      assert DigitPrefix(s) == [s[0]] + r;
      assert forall i :: 1 <= i < 1 + |r| ==> ([s[0]] + r)[i] == r[i - 1];
    }
  }

  /** The value of a string of decimal digits. */
  function DigitsValue(ds: string): nat
    requires AllDigits(ds)
  {
    if |ds| == 0 then 0 else DigitsValue(ds[..|ds| - 1]) * 10 + DigitValue(ds[|ds| - 1])
  }

  /**
   * `parseInt(s, 10)`: skip white space, take one optional sign, then read
   * the longest run of digits; no digits at all gives NaN. (A "-0" result
   * is the number -0, which the game cannot tell apart from 0.)
   */
  function ParseInt(s: string): (r: Num)
    ensures r.NaN? <==> (var u := DropSign(TrimStart(s)); |u| == 0 || !IsDigit(u[0]))
  {
    var t := TrimStart(s);
    var digits := DigitPrefix(DropSign(t));
    DigitPrefixSpec(DropSign(t));
    if |digits| == 0 then NaN
    else if t[0] == '-' then Int(-(DigitsValue(digits) as int))
    else Int(DigitsValue(digits))
  }

  // ---------------------------------------------------------------------
  // Properties
  // ---------------------------------------------------------------------

  /** Reading back the digits of `n` gives `n`. */
  lemma {:induction false} NatDigitsValue(n: nat)
    ensures DigitsValue(NatDigits(n)) == n
    decreases n
  {
    var s := NatDigits(n);
    if n < 10 {
      assert s[..|s| - 1] == [];
    } else {
      var high := NatDigits(n / 10);
      assert s == high + [DigitChar(n % 10)];
      assert s[..|s| - 1] == high;
      NatDigitsValue(n / 10);
    }
  }

  /** A string that starts with something other than white space is not trimmed. */
  lemma TrimStartNoSpace(s: string)
    requires |s| > 0 && !IsStrWhiteSpace(s[0])
    ensures TrimStart(s) == s
  {
  }

  /** The digit run of `ds + rest` is `ds` when `rest` does not continue it. */
  lemma {:induction false} DigitPrefixStops(ds: string, rest: string)
    requires AllDigits(ds)
    requires |rest| == 0 || !IsDigit(rest[0])
    ensures DigitPrefix(ds + rest) == ds
    decreases |ds|
  {
    if |ds| == 0 {
      assert ds + rest == rest;
    } else {
      assert (ds + rest)[1..] == ds[1..] + rest;
      DigitPrefixStops(ds[1..], rest);
      assert [ds[0]] + ds[1..] == ds;
    }
  }

  /** parseInt looks at its input only after trimming the leading white space. */
  lemma ParseIntOfTrimmed(a: string, b: string)
    requires TrimStart(a) == TrimStart(b)
    ensures ParseInt(a) == ParseInt(b)
  {
  }

  /** parseInt of text that starts with its digits, read through to `ds`. */
  lemma ParseIntUnsigned(s: string, ds: string)
    requires |ds| > 0 && AllDigits(ds)
    requires TrimStart(s) == s && DropSign(s) == s && DigitPrefix(s) == ds
    ensures ParseInt(s) == Int(DigitsValue(ds))
  {
  }

  /** parseInt of a minus sign followed by text that starts with its digits `ds`. */
  lemma ParseIntNegative(u: string, ds: string)
    requires |ds| > 0 && AllDigits(ds) && DigitPrefix(u) == ds
    ensures ParseInt("-" + u) == Int(-(DigitsValue(ds) as int))
  {
    var s := "-" + u;
    assert TrimStart(s) == s by {
      TrimStartNoSpace(s);
    }
    assert DropSign(s) == u;
  }

  lemma AppendAssociative(a: string, b: string, c: string)
    ensures a + b + c == a + (b + c)
  {
  }

  /** A digit is neither white space nor a sign. */
  lemma DigitIsNotSpaceOrSign(c: char)
    requires IsDigit(c)
    ensures !IsStrWhiteSpace(c) && c != '-' && c != '+'
  {
  }

  /** parseInt of a run of digits followed by something that is not a digit. */
  lemma ParseIntOfDigits(ds: string, rest: string)
    requires |ds| > 0 && AllDigits(ds)
    requires |rest| == 0 || !IsDigit(rest[0])
    ensures ParseInt(ds + rest) == Int(DigitsValue(ds))
  {
    var s := ds + rest;
    assert TrimStart(s) == s && DropSign(s) == s by {
      assert s[0] == ds[0];
      DigitIsNotSpaceOrSign(s[0]);
      TrimStartNoSpace(s);
    }
    assert DigitPrefix(s) == ds by {
      DigitPrefixStops(ds, rest);
    }
    ParseIntUnsigned(s, ds);
  }

  /** The same with a minus sign in front. */
  lemma ParseIntOfNegativeDigits(ds: string, rest: string)
    requires |ds| > 0 && AllDigits(ds)
    requires |rest| == 0 || !IsDigit(rest[0])
    ensures ParseInt("-" + ds + rest) == Int(-(DigitsValue(ds) as int))
  {
    DigitPrefixStops(ds, rest);
    ParseIntNegative(ds + rest, ds);
    AppendAssociative("-", ds, rest);
  }

  /**
   * parseInt reads back what String wrote, and ignores whatever follows
   * the number when it does not start with a digit.
   */
  lemma ParseIntAfterToString(n: int, rest: string)
    requires |rest| == 0 || !IsDigit(rest[0])
    ensures ParseInt(IntToString(n) + rest) == Int(n)
  {
    var m: nat := if n < 0 then -n else n;
    NatDigitsValue(m);
    if n < 0 {
      ParseIntOfNegativeDigits(NatDigits(m), rest);
    } else {
      ParseIntOfDigits(NatDigits(m), rest);
    }
  }

  /** The text of an integer is a run of digits, possibly after a minus sign. */
  lemma IntToStringChars(n: int)
    ensures forall i :: 0 <= i < |IntToString(n)| ==> IntToString(n)[i] == '-' || IsDigit(IntToString(n)[i])
  {
    if n < 0 {
      var ds := NatDigits(-n);
      assert forall i :: 1 <= i < |"-" + ds| ==> ("-" + ds)[i] == ds[i - 1];
    }
  }

  /** The default score text "0" parses as 0. */
  lemma ParseIntZero()
    ensures ParseInt("0") == Int(0)
  {
    var zero := NatDigits(0);
    assert zero == "0";
    NatDigitsValue(0);
    ParseIntAfterToString(0, "");
    assert zero + "" == zero;
  }

  /** Writing a score as text and parsing it back gives the same score. */
  lemma ParseIntOfNumToString(x: Num)
    ensures ParseInt(NumToString(x)) == x
  {
    match x
    case Int(n) =>
      ParseIntAfterToString(n, "");
      assert IntToString(n) + "" == IntToString(n);
    case NaN =>
      assert DropSign(TrimStart("NaN")) == "NaN";
  }

  /** Trimming skips any run of white space in front of the text. */
  lemma {:induction false} TrimStartSkips(ws: string, s: string)
    requires forall i :: 0 <= i < |ws| ==> IsStrWhiteSpace(ws[i])
    ensures TrimStart(ws + s) == TrimStart(s)
    decreases |ws|
  {
    if |ws| > 0 {
      assert (ws + s)[1..] == ws[1..] + s;
      TrimStartSkips(ws[1..], s);
    } else {
      assert ws + s == s;
    }
  }

  /** Leading white space does not change what parseInt reads. */
  lemma ParseIntSkipsWhiteSpace(ws: string, s: string)
    requires forall i :: 0 <= i < |ws| ==> IsStrWhiteSpace(ws[i])
    ensures ParseInt(ws + s) == ParseInt(s)
  {
    TrimStartSkips(ws, s);
    ParseIntOfTrimmed(ws + s, s);
  }

  /** Text that does not start with a digit, sign or white space is NaN. */
  lemma ParseIntNoDigits(s: string)
    requires |s| == 0 || !(IsDigit(s[0]) || s[0] == '-' || s[0] == '+' || IsStrWhiteSpace(s[0]))
    ensures ParseInt(s) == NaN
  {
  }
}

=== FILE: players.dfy ===
/**
 * The player (`Player` in src/js/classes.js): a display name and a score,
 * persisted as two text entries of a key-value store. The store is the
 * browser's local storage, modelled as a map from key to text; `load`
 * reads the entries with the defaults "Player" and "0" and parses the
 * score with `parseInt`.
 */
module Players {
  import opened Wrappers
  import opened Numbers
  import opened Cookies

  /** The sentinel name of a player who has not introduced themselves. */
  const DefaultName: string := "Player"

  const NameKey: string := "scratch_player_name"
  const ScoreKey: string := "scratch_player_score"

  /** The contents of local storage. */
  type Storage = map<string, string>

  datatype Player = Player(name: string, score: Num)

  /** What `load` yields from a store with no saved player. */
  const DefaultPlayer: Player := Player(DefaultName, Int(0))

  predicate IsDefaultName(p: Player) {
    p.name == DefaultName
  }

  /** One more point. */
  function ScorePoint(p: Player): (r: Player)
    ensures r.name == p.name
    ensures p.score.Int? ==> r.score == Int(p.score.value + 1)
    ensures p.score.NaN? ==> r.score.NaN?
  {
    p.(score := Plus(p.score, 1))
  }

  /** `getItem`: the stored text, or None (null) when the key is absent. */
  function GetItem(st: Storage, key: string): Option<string> {
    if key in st then Some(st[key]) else None
  }

  /** `text || fallback` for text that may be null: null and "" are both falsy. */
  function OrElse(text: Option<string>, fallback: string): (r: string)
    ensures text.Some? && text.value != "" ==> r == text.value
    ensures text.None? || text.value == "" ==> r == fallback
  {
    if text.Some? && text.value != "" then text.value else fallback
  }

  /** `save`: both entries written, the score as `String(score)`; other keys untouched. */
  function Save(p: Player, st: Storage): (r: Storage)
    ensures NameKey in r && r[NameKey] == p.name
    ensures ScoreKey in r && r[ScoreKey] == NumToString(p.score)
    ensures r.Keys == st.Keys + {NameKey, ScoreKey}
    ensures forall k :: k in st && k != NameKey && k != ScoreKey ==> r[k] == st[k]
  {
    st[NameKey := p.name][ScoreKey := NumToString(p.score)]
  }

  /** `load`: the saved player, with the defaults for missing or empty entries. */
  function Load(st: Storage): (p: Player)
    ensures p.name != ""
    ensures NameKey in st && st[NameKey] != "" ==> p.name == st[NameKey]
    ensures NameKey !in st || st[NameKey] == "" ==> p.name == DefaultName
    ensures ScoreKey in st && st[ScoreKey] != "" ==> p.score == ParseInt(st[ScoreKey])
    ensures ScoreKey !in st || st[ScoreKey] == "" ==> p.score == Int(0)
  {
    ParseIntZero();
    Player(OrElse(GetItem(st, NameKey), DefaultName),
           ParseInt(OrElse(GetItem(st, ScoreKey), "0")))
  }

  /** `wipeSave`: both entries removed; other keys untouched. */
  function Wipe(st: Storage): (r: Storage)
    ensures NameKey !in r && ScoreKey !in r
    ensures r.Keys == st.Keys - {NameKey, ScoreKey}
    ensures forall k :: k in r ==> r[k] == st[k]
  {
    st - {NameKey, ScoreKey}
  }

  /**
   * The fallback branch of `load`, taken when local storage throws: the
   * same defaults, read from the `document.cookie` string.
   */
  function LoadFromCookie(cookie: string): (p: Player)
    ensures p.name != ""
    ensures p.name == DefaultName || ';' !in p.name
    ensures var name := ReadCookie(cookie, NameKey);
      && (name.Some? && name.value != "" ==> p.name == name.value)
      && (name.None? || name.value == "" ==> p.name == DefaultName)
    ensures var score := ReadCookie(cookie, ScoreKey);
      && (score.Some? && score.value != "" ==> p.score == ParseInt(score.value))
      && (score.None? || score.value == "" ==> p.score == Int(0))
  {
    ParseIntZero();
    Player(OrElse(ReadCookie(cookie, NameKey), DefaultName),
           ParseInt(OrElse(ReadCookie(cookie, ScoreKey), "0")))
  }

  // ---------------------------------------------------------------------
  // Persistence round trips
  // ---------------------------------------------------------------------

  /** Saving and loading again gives back the player, whenever the name is not empty. */
  lemma SaveThenLoad(p: Player, st: Storage)
    requires p.name != ""
    ensures Load(Save(p, st)) == p
  {
    ParseIntOfNumToString(p.score);
    if p.score == Int(0) {
      assert NumToString(p.score) == "0";
    }
  }

  /** An empty name does not survive the round trip: it loads as the default name. */
  lemma SaveEmptyNameThenLoad(score: Num, st: Storage)
    ensures Load(Save(Player("", score), st)) == Player(DefaultName, score)
  {
    ParseIntOfNumToString(score);
  }

  /** After a wipe the store yields the default player, whatever it held before. */
  lemma WipeThenLoad(st: Storage)
    ensures Load(Wipe(st)) == DefaultPlayer
  {
    ParseIntZero();
    assert GetItem(Wipe(st), NameKey) == None;
    assert GetItem(Wipe(st), ScoreKey) == None;
  }

  /** A save overwrites an earlier one. */
  lemma SaveTwice(p: Player, q: Player, st: Storage)
    ensures Save(q, Save(p, st)) == Save(q, st)
  {
  }

  /** A wipe removes everything a save wrote. */
  lemma WipeAfterSave(p: Player, st: Storage)
    ensures Wipe(Save(p, st)) == Wipe(st)
  {
  }

  /** The examples of happycat's tests: the default player is unnamed, "Foo Bar" is not. */
  lemma DefaultNameIff(p: Player)
    ensures IsDefaultName(p) <==> p.name == "Player"
    ensures IsDefaultName(DefaultPlayer) && !IsDefaultName(Player("Foo Bar", p.score))
  {
  }

  /**
   * The introduction is asked for again after a reload exactly when no real
   * name was stored: the entry is missing, empty, or the sentinel itself.
   */
  lemma LoadedDefaultIff(st: Storage)
    ensures IsDefaultName(Load(st)) <==>
      NameKey !in st || st[NameKey] == "" || st[NameKey] == DefaultName
  {
  }

  /** A stored score that is not a number loads as NaN, not as 0. */
  lemma MalformedScoreLoadsAsNaN(st: Storage)
    ensures Load(st[ScoreKey := "abc"]).score == NaN
  {
    ParseIntNoDigits("abc");
  }

  /** With no cookie at all the fallback also yields the default player. */
  lemma LoadFromEmptyCookie()
    ensures LoadFromCookie("") == DefaultPlayer
  {
    assert Split("", ';') == [""];
    ParseIntZero();
  }

  /** The piece a cookie string holds for the name entry. */
  function NamePiece(name: string): string {
    NameKey + "=" + name
  }

  /** The piece for the score entry, led by the space the browser puts after `;`. */
  function ScorePiece(score: int): string {
    " " + ScoreKey + "=" + IntToString(score)
  }

  /** The browser's form of a cookie string holding both entries. */
  function CookieString(name: string, score: int): string {
    NamePiece(name) + ";" + ScorePiece(score)
  }

  /** The name piece holds no `;` when the name holds none. */
  lemma NamePieceClean(name: string)
    requires ';' !in name
    ensures ';' !in NamePiece(name)
  {
    var key := NameKey + "=";
    assert ';' !in key;
    assert NamePiece(name) == key + name;
  }

  /** The score piece never holds a `;`: the decimal text is digits and '-'. */
  lemma ScorePieceClean(score: int)
    ensures ';' !in ScorePiece(score)
  {
    var lead := " " + ScoreKey + "=";
    var digits := IntToString(score);
    assert ';' !in lead;
    IntToStringChars(score);
    assert ';' !in digits;
    assert ScorePiece(score) == lead + digits;
  }

  /** Such a string splits into the name piece and the score piece. */
  lemma CookieStringPieces(name: string, score: int)
    requires ';' !in name
    ensures Split(CookieString(name, score), ';') == [NamePiece(name), ScorePiece(score)]
  {
    var pieces := [NamePiece(name), ScorePiece(score)];
    NamePieceClean(name);
    ScorePieceClean(score);
    assert Join(pieces, ';') == CookieString(name, score);
    SplitJoin(pieces, ';');
  }

  /** The name piece is not trimmed and starts with the name key. */
  lemma NamePieceEntry(name: string)
    ensures TrimSpaces(NamePiece(name)) == NamePiece(name)
    ensures StartsWithKey(NamePiece(name), NameKey + "=")
    ensures TrimSpaces(NamePiece(name))[|NameKey| + 1..] == name
  {
    TrimSpacesNoSpace(NamePiece(name));
  }

  /** The name piece does not start with the score key: they differ at position 15. */
  lemma NamePieceIsNotScore(name: string)
    ensures !StartsWithKey(NamePiece(name), ScoreKey + "=")
  {
    NamePieceEntry(name);
    assert NamePiece(name)[15] == NameKey[15] != ScoreKey[15];
  }

  /** The score piece, trimmed, starts with the score key and then holds the score text. */
  lemma ScorePieceEntry(score: int)
    ensures StartsWithKey(ScorePiece(score), ScoreKey + "=")
    ensures TrimSpaces(ScorePiece(score))[|ScoreKey| + 1..] == IntToString(score)
  {
    var entry := ScoreKey + "=" + IntToString(score);
    assert ScorePiece(score) == " " + entry;
    TrimSpacesOneSpace(entry);
    assert ScoreKey + "=" <= entry;
  }

  /** The name entry is read from the first piece. */
  lemma CookieStringName(name: string, score: int)
    requires ';' !in name
    ensures ReadCookie(CookieString(name, score), NameKey) == Some(name)
  {
    CookieStringPieces(name, score);
    NamePieceEntry(name);
    ReadCookieAt(CookieString(name, score), NameKey, 0);
  }

  /** The score entry is read from the second piece: the first does not start with its key. */
  lemma CookieStringScore(name: string, score: int)
    requires ';' !in name
    ensures ReadCookie(CookieString(name, score), ScoreKey) == Some(IntToString(score))
  {
    CookieStringPieces(name, score);
    NamePieceIsNotScore(name);
    ScorePieceEntry(score);
    ReadCookieAt(CookieString(name, score), ScoreKey, 1);
  }

  /**
   * The cookie fallback reads a cookie string in the browser's
   * "name=value; name=value" form back into the player it describes.
   */
  lemma LoadFromCookieString(name: string, score: int)
    requires name != "" && ';' !in name
    ensures LoadFromCookie(CookieString(name, score)) == Player(name, Int(score))
  {
    CookieStringName(name, score);
    CookieStringScore(name, score);
    ParseIntAfterToString(score, "");
    assert IntToString(score) + "" == IntToString(score);
  }
}

=== FILE: samplers.dfy ===
/**
 * The sound-effect picker (`Sampler` in src/js/classes.js): a list of
 * audio elements, one of which `playRandom` picks with
 * `Math.floor(Math.random() * length)` and plays if it can.
 */
module Samplers {
  import opened Wrappers
  import opened Numbers

  /** One audio element; `canPlay` says whether it exposes a `play` action. */
  datatype AudioHandle = AudioHandle(canPlay: bool)

  /** 0 <= r * count < count for a random draw `r`. */
  lemma ScaledDraw(count: nat, r: real)
    requires count > 0 && IsRandom(r)
    ensures 0.0 <= r * count as real < count as real
  {
    assert (1.0 - r) * count as real > 0.0;
  }

  /** `Math.floor(r * count)`: the element a draw `r` selects. */
  function PickIndex(count: nat, r: real): (i: nat)
    requires count > 0 && IsRandom(r)
    ensures i < count
    ensures i as real <= r * count as real < i as real + 1.0
  {
    ScaledDraw(count, r);
    (r * count as real).Floor
  }

  /**
   * `playRandom`: the index of the element played, or None when the list
   * is empty or the selected element cannot play.
   */
  function PlayRandom(samples: seq<AudioHandle>, r: real): (played: Option<nat>)
    requires IsRandom(r)
    ensures |samples| == 0 ==> played.None?
    ensures played.Some? ==> played.value < |samples| && samples[played.value].canPlay
    ensures played.Some? ==> |samples| > 0 && played.value == PickIndex(|samples|, r)
    ensures |samples| > 0 && samples[PickIndex(|samples|, r)].canPlay ==>
              played == Some(PickIndex(|samples|, r))
  {
    if |samples| > 0 then
      var index := PickIndex(|samples|, r);
      if samples[index].canPlay then Some(index) else None
    else
      None
  }

  /** Every element can be chosen: the draw i / count selects element i. */
  lemma EveryIndexReachable(count: nat, i: nat)
    requires i < count
    ensures IsRandom(i as real / count as real)
    ensures PickIndex(count, i as real / count as real) == i
  {
    var r := i as real / count as real;
    assert r * count as real == i as real;
  }
}

=== FILE: surfaces.dfy ===
/**
 * The clickable target (`Surface` in src/js/classes.js): an integer
 * position and velocity and a size fixed at 200 x 240 when it is built.
 * The DOM node it drives, the CSS it writes on every change and the click
 * hook are rendering glue and are not part of this module.
 */
module Surfaces {
  import opened Vectors

  /** The size every surface is built with; nothing ever changes it. */
  const DefaultSize: Size := Size(200, 240)

  datatype Surface = Surface(position: Vec2, velocity: Vec2, size: Size)

  /** A freshly built surface: at the origin, at rest. */
  function NewSurface(): Surface {
    Surface(Vec2(0, 0), Vec2(0, 0), DefaultSize)
  }

  /** Absolute placement. */
  function SetPosition(s: Surface, p: Vec2): (r: Surface)
    ensures r.position == p
    ensures r.velocity == s.velocity && r.size == s.size
  {
    s.(position := p)
  }

  /** Relative placement: the position moves by `delta`. */
  function Move(s: Surface, delta: Vec2): (r: Surface)
    ensures r.position.x == s.position.x + delta.x
    ensures r.position.y == s.position.y + delta.y
    ensures r.velocity == s.velocity && r.size == s.size
  {
    s.(position := Add(s.position, delta))
  }

  /** Replaces the velocity. */
  function SetVelocity(s: Surface, v: Vec2): (r: Surface)
    ensures r.velocity == v
    ensures r.position == s.position && r.size == s.size
  {
    s.(velocity := v)
  }

  /** Adds `delta` to the velocity (`accellerate` in the source). */
  function Accelerate(s: Surface, delta: Vec2): (r: Surface)
    ensures r.velocity.x == s.velocity.x + delta.x
    ensures r.velocity.y == s.velocity.y + delta.y
    ensures r.position == s.position && r.size == s.size
  {
    s.(velocity := Add(s.velocity, delta))
  }

  /**
   * On one axis, a surface whose leading edge would be at `next` and which
   * is `extent` long would not lie inside [0, bound).
   */
  predicate Leaves(next: int, extent: int, bound: int) {
    next < 0 || next + extent >= bound
  }

  /**
   * One tick: look at where the velocity would take the surface, reverse
   * each velocity component whose axis would be left, then move by the
   * velocity as it now is. The two axes are decided independently.
   */
  function Iterate(s: Surface, bounds: Size): (r: Surface)
    ensures r.velocity.x == if Leaves(s.position.x + s.velocity.x, s.size.w, bounds.w)
                            then -s.velocity.x else s.velocity.x
    ensures r.velocity.y == if Leaves(s.position.y + s.velocity.y, s.size.h, bounds.h)
                            then -s.velocity.y else s.velocity.y
    ensures r.position == Add(s.position, r.velocity)
    ensures r.size == s.size
  {
    var next := Add(s.position, s.velocity);
    var vx := if next.x < 0 || next.x + s.size.w >= bounds.w then -s.velocity.x else s.velocity.x;
    var vy := if next.y < 0 || next.y + s.size.h >= bounds.h then -s.velocity.y else s.velocity.y;
    var turned := SetVelocity(s, Vec2(vx, vy));
    Move(turned, turned.velocity)
  }

  /** The surface lies inside the field: 0 <= left edge and right edge < width, and the same vertically. */
  predicate Inside(s: Surface, bounds: Size) {
    && 0 <= s.position.x && s.position.x + s.size.w < bounds.w
    && 0 <= s.position.y && s.position.y + s.size.h < bounds.h
  }

  function Abs(n: int): nat {
    if n < 0 then -n else n
  }

  // ---------------------------------------------------------------------
  // How the setters combine
  // ---------------------------------------------------------------------

  /** Two moves add up. */
  lemma MoveTwice(s: Surface, a: Vec2, b: Vec2)
    ensures Move(Move(s, a), b) == Move(s, Add(a, b))
  {
  }

  /** Moving back by the opposite delta undoes a move. */
  lemma MoveUndo(s: Surface, d: Vec2)
    ensures Move(Move(s, d), Neg(d)) == s
  {
  }

  /** A move is a placement at the shifted position. */
  lemma MoveIsSetPosition(s: Surface, d: Vec2)
    ensures Move(s, d) == SetPosition(s, Add(s.position, d))
  {
  }

  /** The last placement wins. */
  lemma SetPositionTwice(s: Surface, p: Vec2, q: Vec2)
    ensures SetPosition(SetPosition(s, p), q) == SetPosition(s, q)
  {
  }

  /** Two accelerations add up. */
  lemma AccelerateTwice(s: Surface, a: Vec2, b: Vec2)
    ensures Accelerate(Accelerate(s, a), b) == Accelerate(s, Add(a, b))
  {
  }

  /** The last velocity set wins. */
  lemma SetVelocityTwice(s: Surface, v: Vec2, w: Vec2)
    ensures SetVelocity(SetVelocity(s, v), w) == SetVelocity(s, w)
  {
  }

  /** Position setters and velocity setters touch different fields, so their order does not matter. */
  lemma MoveAccelerateCommute(s: Surface, d: Vec2, e: Vec2)
    ensures Accelerate(Move(s, d), e) == Move(Accelerate(s, e), d)
    ensures SetVelocity(SetPosition(s, d), e) == SetPosition(SetVelocity(s, e), d)
  {
  }

  // ---------------------------------------------------------------------
  // The bounce law
  // ---------------------------------------------------------------------

  /** A tick never changes the speed on either axis: it only reverses direction. */
  lemma IterateKeepsSpeed(s: Surface, bounds: Size)
    ensures Abs(Iterate(s, bounds).velocity.x) == Abs(s.velocity.x)
    ensures Abs(Iterate(s, bounds).velocity.y) == Abs(s.velocity.y)
  {
  }

  /**
   * For a moving axis, the velocity is reversed exactly when the candidate
   * position leaves the field on that axis.
   */
  lemma BounceIff(s: Surface, bounds: Size)
    ensures s.velocity.x != 0 ==>
      (Iterate(s, bounds).velocity.x != s.velocity.x <==> Leaves(s.position.x + s.velocity.x, s.size.w, bounds.w))
    ensures s.velocity.y != 0 ==>
      (Iterate(s, bounds).velocity.y != s.velocity.y <==> Leaves(s.position.y + s.velocity.y, s.size.h, bounds.h))
  {
  }

  /** What happens on the x axis depends on x data alone, and likewise for y. */
  lemma AxesIndependent(s: Surface, t: Surface, bounds: Size, other: Size)
    requires s.position.x == t.position.x && s.velocity.x == t.velocity.x
    requires s.size.w == t.size.w && bounds.w == other.w
    ensures Iterate(s, bounds).position.x == Iterate(t, other).position.x
    ensures Iterate(s, bounds).velocity.x == Iterate(t, other).velocity.x
  {
  }

  /** The cases happycat's tests (test/classes.js) check. */
  lemma IterateExamples()
    ensures var s := Iterate(Surface(Vec2(100, 234), Vec2(-100, 100), DefaultSize), Size(1000, 1000));
      s.position == Vec2(0, 334) && s.velocity == Vec2(-100, 100)
    ensures Iterate(Surface(Vec2(100, 0), Vec2(-150, 1), DefaultSize), Size(300, 300)).velocity == Vec2(150, 1)
    ensures Iterate(Surface(Vec2(100, 0), Vec2(250, 1), DefaultSize), Size(300, 300)).velocity == Vec2(-250, 1)
    ensures Iterate(Surface(Vec2(0, 100), Vec2(1, -150), DefaultSize), Size(300, 300)).velocity == Vec2(1, 150)
    ensures Iterate(Surface(Vec2(0, 100), Vec2(1, 250), DefaultSize), Size(300, 300)).velocity == Vec2(1, -250)
    ensures Iterate(Surface(Vec2(1, 2), Vec2(5, 5), DefaultSize), Size(1000, 1000)).position == Vec2(6, 7)
  {
  }

  /**
   * A surface inside a field that has room for its extent plus twice its
   * speed on each axis is still inside after a tick.
   */
  lemma IterateStaysInside(s: Surface, bounds: Size)
    requires Inside(s, bounds)
    requires bounds.w >= s.size.w + 2 * Abs(s.velocity.x)
    requires bounds.h >= s.size.h + 2 * Abs(s.velocity.y)
    ensures Inside(Iterate(s, bounds), bounds)
  {
  }

  /**
   * Without that room, reflecting instead of clamping can carry a surface
   * out of the field: here it bounces off the left edge past the right one.
   */
  lemma IterateCanLeave()
    ensures var s := Surface(Vec2(5, 0), Vec2(-30, 0), DefaultSize);
      Inside(s, Size(210, 1000)) && !Inside(Iterate(s, Size(210, 1000)), Size(210, 1000))
  {
  }
}

=== FILE: vectors.dfy ===
/**
 * The plain coordinate records the game passes around: `{x, y}` for
 * positions and velocities, `{w, h}` for sizes and the playing field.
 * Coordinates are whole pixels.
 */
module Vectors {

  datatype Vec2 = Vec2(x: int, y: int)

  datatype Size = Size(w: int, h: int)

  function Add(a: Vec2, b: Vec2): Vec2 {
    Vec2(a.x + b.x, a.y + b.y)
  }

  function Neg(v: Vec2): Vec2 {
    Vec2(-v.x, -v.y)
  }
}

=== FILE: wrappers.dfy ===
/** The optional value used wherever the program returns a value or `null`. */
module Wrappers {

  datatype Option<+T> = None | Some(value: T)
}
